=== FILE: README.md ===
# Rule metadata registry and amendment console rules

This project is a Dafny model of the two pieces of deterministic logic in the
governance dashboard's browser front end.

- **The rule metadata registry** (`engine/ruleRegistry.ts` and its plain
  JavaScript twin `engine/ruleRegistry.js`). A frozen object maps each of the
  twelve rule codes to a five-field metadata record. A frozen array lists the
  same entries in authoritative order. Two accessors read them:
  `getRuleMetadata` is a point lookup that is absent for unknown codes, and
  `listRuleMetadata` returns the ordered list. The model is an immutable
  `map<string, Entry>` plus a `seq<Entry>`, written from the literals of each
  file.
- **The amendment console's client-side rules** (`views/AmendmentConsole.js`),
  lifted out of the JSX into pure functions:
  - which amendment states are terminal;
  - which action buttons a state offers;
  - how a button press toggles the action form;
  - how `ActionPanel.submit` validates the actor and builds the POST body;
  - how the list builds its query parameters;
  - how the filter and pagination handlers move the list's `UIState`.

Modules:

| module | file | models |
|---|---|---|
| `Wrappers` | wrappers.dfy | `Option`, standing in for `undefined` / `null` |
| `RuleRegistry` | rule_registry.dfy | ruleRegistry.ts: entries, map, alias, list, accessors, policy version |
| `RuleRegistryJs` | rule_registry_js.dfy | ruleRegistry.js, from its own literals, proved equal to the TypeScript registry |
| `JsPropertyLookup` | js_property_lookup.dfy | the run-time bracket read of both accessors (finding 1) |
| `FrozenRegistry` | frozen_registry.dfy | the registry as heap objects under `Object.freeze` (finding 2) |
| `JsString` | js_string.dfy | ECMAScript `String.prototype.trim` |
| `AmendmentGating` | amendment_gating.dfy | `TERMINAL`, action gating and toggling in `AmendmentDetail` |
| `ActionRequest` | action_request.dfy | `ActionPanel.submit` validation and request |
| `AmendmentList` | amendment_list.dfy | list params, filter and page handlers, Previous / Next enabling |

In the model, purity and determinism hold by construction. Every accessor is
a Dafny function of constants, so repeated calls return identical values.
Immutability is given substance in `FrozenRegistry`. There, the registry's
objects live on a heap, and a consumer's writes either succeed or are refused
according to what is frozen.

Notes on what the code does:
- The entry fields are `ruleCode`, `domain`, `description`,
  `documentReference` and `introducedInPolicyVersion`.
- No "first occurrence wins" rule applies to duplicate codes. The registry is
  a literal object with no construction routine, and no code appears twice.
- The lookup and the freeze fall short of the promises in the file header
  (ruleRegistry.ts:4-8) and the accessor's documentation. These shortfalls
  are logged under Findings.

## Model

| member | source | states |
|---|---|---|
| `RuleRegistry.GetRuleMetadata` | frontend/src/engine/ruleRegistry.ts:205-207 | present exactly for the twelve declared codes, absent (never an error) for every other string; a found entry carries the looked-up code, the current policy version, and is an element of the list view |
| `RuleRegistry.ListRuleMetadata` | frontend/src/engine/ruleRegistry.ts:215-217 | twelve entries whose codes are, position by position, SOVR-001 … PROD-002 in declared order, each the map's entry for its own code |
| `RuleRegistry.KeysMatchCodes` | frontend/src/engine/ruleRegistry.ts:73-159 | every entry's `ruleCode` equals the key it is stored under |
| `RuleRegistry.DeclaredOrderDistinct` | frontend/src/engine/ruleRegistry.ts:183-196 | the twelve declared codes are pairwise different |
| `RuleRegistry.ListCodesInDeclaredOrder` | frontend/src/engine/ruleRegistry.ts:183-196 | the list view's codes are exactly the declared order |
| `RuleRegistry.ListEntriesAreLookups` | frontend/src/engine/ruleRegistry.ts:183-196 | for every index i, looking up the code of list element i returns that element |
| `RuleRegistry.ListCodesDistinct` | frontend/src/engine/ruleRegistry.ts:183-196 | no code occurs twice in the list view |
| `RuleRegistry.ListCodesAreKeys` | frontend/src/engine/ruleRegistry.ts:73-196 | a string is a key of the map exactly when it is the code of some list element |
| `RuleRegistry.LookupAgreesWithListScan` | frontend/src/engine/ruleRegistry.ts:205-207 | the map lookup equals a first-match scan of the ordered list for every code: both find the same entry, or both find nothing |
| `RuleRegistry.AliasLookupsAgree` | frontend/src/engine/ruleRegistry.ts:167-176 | looking up through `RULE_REGISTRY_BY_CODE` and through `RULE_REGISTRY` gives the same result for every code |
| `RuleRegistry.EntriesIntroducedAtPolicyVersion` | frontend/src/engine/ruleRegistry.ts:17-159 | the policy version is "1.0.0" and every entry was introduced at it, so none exceeds it |
| `RuleRegistryJs.JsGetRuleMetadata` | frontend/src/engine/ruleRegistry.js:191-193 | the twin's lookup: present exactly for the declared codes, absent otherwise; a found entry carries the code and the twin's policy version |
| `RuleRegistryJs.JsListRuleMetadata` | frontend/src/engine/ruleRegistry.js:201-203 | the twin's list: twelve entries in declared order, each the twin map's entry for its code |
| `RuleRegistryJs.JsKeysMatchCodes` | frontend/src/engine/ruleRegistry.js:59-145 | every entry of the twin is stored under its own code |
| `RuleRegistryJs.JsAliasLookupsAgree` | frontend/src/engine/ruleRegistry.js:153-161 | the twin's alias export answers every lookup as its registry does |
| `RuleRegistryJs.JsListCodesDistinct` | frontend/src/engine/ruleRegistry.js:169-182 | the twin's list has no duplicate code |
| `RuleRegistryJs.JsEntriesIntroducedAtPolicyVersion` | frontend/src/engine/ruleRegistry.js:17-145 | the twin's policy version is "1.0.0", equal to the TypeScript one, and every twin entry was introduced at it |
| `RuleRegistryJs.TwinsAgree` | frontend/src/engine/ruleRegistry.js:59-203 | the two files define the same map and the same list, so each accessor gives the same answer in both for every input |
| `JsPropertyLookup.GetRuleMetadataAsWritten` | frontend/src/engine/ruleRegistry.ts:205-207 | the bracket read as written yields an own entry exactly for declared codes and an inherited `Object.prototype` member, the one of that name, exactly for the twelve inherited property names |
| `JsPropertyLookup.InheritedNameLeaks` | frontend/src/engine/ruleRegistry.js:191-193 | "toString" is no rule code, yet the lookup as written returns the inherited member instead of `undefined` |
| `JsPropertyLookup.CorrectedIgnoresPrototype` | frontend/src/engine/ruleRegistry.ts:198-207 | the corrected lookup is absent for every inherited property name, as the accessor's documentation promises |
| `JsPropertyLookup.AsWrittenAgreesOffPrototype` | frontend/src/engine/ruleRegistry.js:191-193 | for every code that is not an inherited property name, the lookup as written and the corrected lookup agree |
| `FrozenRegistry.RegistryHeapShowsRegistry` | frontend/src/engine/ruleRegistry.ts:73-196 | the allocated objects (entries, registry object, list array) show exactly the registry's lookups and list |
| `FrozenRegistry.ShallowFreezeLeaks` | frontend/src/engine/ruleRegistry.js:147-182 | with only the registry object and the list frozen, writing one entry's description changes what later lookups and the list report |
| `FrozenRegistry.ShallowFreezeKeepsShape` | frontend/src/engine/ruleRegistry.js:147-182 | what the shallow freeze does protect: no sequence of writes adds, removes or repoints a code or a list element |
| `FrozenRegistry.DeepFrozen` | frontend/src/engine/ruleRegistry.ts:161-169 | corrected construction: the registry's own heap, with the registry object, the list and every entry object frozen |
| `FrozenRegistry.DeepFreezeImmutable` | frontend/src/engine/ruleRegistry.ts:4-8 | after the deep freeze, any sequence of consumer writes leaves every lookup and the list equal to the registry's literal entries |
| `JsString.Trim` | frontend/src/views/AmendmentConsole.js:233 | the trimmed string is empty exactly when the input is all ECMAScript whitespace and line terminators, and otherwise starts and ends with a non-whitespace code point |
| `JsString.TrimIsSlice` | frontend/src/views/AmendmentConsole.js:237-238 | trimming removes only whitespace, and only from the two ends: the result is a contiguous slice of the input |
| `JsString.TrimIgnoresPadding` | frontend/src/views/AmendmentConsole.js:233 | surrounding a string with whitespace does not change its trimmed value |
| `JsString.TrimIdempotent` | frontend/src/views/AmendmentConsole.js:237 | trimming twice is trimming once |
| `AmendmentGating.ParseState` | frontend/src/views/AmendmentConsole.js:327 | reads a `current_state` string: unrecognised exactly when it is not one of the six state names, and the state's name is the string read |
| `AmendmentGating.ParseStateName` | frontend/src/views/AmendmentConsole.js:327 | naming a well-formed state and reading the name back returns the state |
| `AmendmentGating.OfferedActions` | frontend/src/views/AmendmentConsole.js:386-419 | terminal states (EXECUTED, REJECTED, WITHDRAWN) and unrecognised ones offer nothing; approve and reject are offered iff PROPOSED or UNDER_REVIEW; execute iff APPROVED; never both groups |
| `AmendmentGating.OfferedMatchesOfferedFrom` | frontend/src/views/AmendmentConsole.js:53-419 | the per-state offer agrees with a per-action table of source states, and no action's source states include a terminal state |
| `AmendmentGating.Press` | frontend/src/views/AmendmentConsole.js:393-412 | pressing the selected action clears the selection; pressing any other action selects it |
| `AmendmentGating.PressTwiceRestores` | frontend/src/views/AmendmentConsole.js:393 | from no selection or the same selection, pressing a button twice restores the selection |
| `AmendmentGating.ShownForm` | frontend/src/views/AmendmentConsole.js:386-429 | an action form is rendered only for a non-terminal amendment, and on every non-terminal amendment the selected action's form is rendered |
| `AmendmentGating.ShownFormIsOpenForm` | frontend/src/views/AmendmentConsole.js:386-429 | while the open form is consistent with the state, the rendered form is exactly the selected action |
| `AmendmentGating.DetailStep` | frontend/src/views/AmendmentConsole.js:313-429 | a reload parses the `current_state` it read into a well-formed state and clears the action; a cancel clears the action; a press toggles only an offered action and a press on an action that is not offered changes nothing; nothing but a reload changes the state |
| `AmendmentGating.DetailStepKeepsFormConsistent` | frontend/src/views/AmendmentConsole.js:313-429 | a press, a cancel or a reload keeps any open form on an action the current state offers |
| `AmendmentGating.DetailRunKeepsFormConsistent` | frontend/src/views/AmendmentConsole.js:313-429 | over any sequence of events, an open form is for an offered action, never on a terminal amendment, and execute only on an APPROVED one |
| `ActionRequest.NormaliseNotes` | frontend/src/views/AmendmentConsole.js:238 | notes become null exactly when they are all whitespace, otherwise the non-empty trimmed notes |
| `ActionRequest.Submit` | frontend/src/views/AmendmentConsole.js:232-246 | an all-whitespace actor gives "Actor name is required." and no request; otherwise one POST to `/amendments/<id>/<action>` whose body has exactly the actor key and `notes`, the actor trimmed and non-empty |
| `ActionRequest.SubmitIgnoresPadding` | frontend/src/views/AmendmentConsole.js:233-238 | whitespace typed around the actor or the notes changes neither the error nor the request |
| `ActionRequest.ActorFieldByAction` | frontend/src/views/AmendmentConsole.js:224-238 | an execute request carries `resolved_by` and not `transitioned_by`; an approve or reject request carries `transitioned_by` and not `resolved_by` |
| `AmendmentList.BuildParams` | frontend/src/views/AmendmentConsole.js:524-526 | the list query always carries the page and a page size of 20, and carries a state iff the filter is not "ALL", equal to the filter |
| `AmendmentList.FilterButtonsSendKnownStates` | frontend/src/views/AmendmentConsole.js:507-526 | every filter button other than "ALL" sends one of the six known state names |
| `AmendmentList.HandleFilter` | frontend/src/views/AmendmentConsole.js:542 | changing the filter goes back to page 1 and clears the selection, so the next list request asks for page 1 of the new filter |
| `AmendmentList.HandlePage` | frontend/src/views/AmendmentConsole.js:543 | changing the page clears the selection and keeps the filter, so the next list request carries the same state parameter |
| `AmendmentList.PrevEnabled` | frontend/src/views/AmendmentConsole.js:636 | Previous is disabled on page 1 and while loading; on a valid state it is enabled exactly when a previous page exists and nothing is loading |
| `AmendmentList.ListStep` | frontend/src/views/AmendmentConsole.js:542-644 | a filter button applies `handleFilter` (new filter, page 1, no selection); an enabled Previous or Next applies `handlePage` one page back or forward; Refresh clears the selection unless loading, when its button is disabled; closing the detail clears the selection and a row click selects that row; a click on a disabled Previous or Next button, or on a filter that has no button, changes nothing; only a filter click changes the filter; only a filter or page click changes the page |
| `AmendmentList.DisabledClicksChangeNothing` | frontend/src/views/AmendmentConsole.js:636-642 | Previous at page 1 or while loading, and Next without a next page or while loading, change nothing; an enabled click moves exactly one page |
| `AmendmentList.ListStepKeepsValid` | frontend/src/views/AmendmentConsole.js:542-644 | every click or load keeps the page at least 1 and the filter one of the buttons; Previous on page 1 is disabled |
| `AmendmentList.ReachableStatesValid` | frontend/src/views/AmendmentConsole.js:512-644 | from a valid state, over any sequence of events, the page stays at least 1, the filter stays a button value, and the query carries no state or a known state name |
| `AmendmentList.InitialValid` | frontend/src/views/AmendmentConsole.js:515-517 | the mount state (page 1, filter "ALL") satisfies the list invariant |

## Left out

- JSX rendering, the style maps (`STATE_STYLE`, `TYPE_STYLE`, `OUTCOME_STYLE`), labels and accents: presentation only.
- HTTP: every `api.get` / `api.post` call, the axios client and its interceptors. These are foreign I/O. The model returns the path, body and query parameters that would be sent.
- React effect timing and async error extraction. `loading` is kept only as a `UIState` field that `LoadStarted` / `LoadFinished` events set, because the Previous / Next enabling reads it. A reload of the detail panel is one atomic event.
- `SimulationPanel` and the show/hide simulation toggle: fetch and render only.
- Date formatting (`ts`): depends on the environment.
- The backend's amendment transition machine: it is not part of this model. Only the console's gating is stated.
- Duplicate-code handling: the registry is a literal object with no construction routine and no duplicate codes, so there is nothing to model.
- `FrozenRegistry.Perform`: out-of-range writes to an array are left out (JavaScript would extend the array). The list array is frozen in both the as-written and the corrected construction, so such writes never happen.
- `AmendmentList.ListStep`: the reload that Refresh, a page change and a filter change start is not part of the click. It is modelled by the separate `LoadStarted` / `LoadFinished` events, in any order the backend's answers arrive.
- Strings are sequences of Unicode code points, not UTF-16 code units. `trim` strips only Basic Multilingual Plane code points, so the trimmed results agree for well-formed strings. A JavaScript string holding an unpaired surrogate has no counterpart here, because a Dafny `char` cannot hold a surrogate code point.

## Findings

| source | as written | input that shows it | evidently intended | confidence | as-written member | corrected member |
|---|---|---|---|---|---|---|
| frontend/src/engine/ruleRegistry.js:191-193 (and ruleRegistry.ts:205-207) | `RULE_REGISTRY_BY_CODE[ruleCode]` reads a plain object literal, so a miss falls through to `Object.prototype` | `getRuleMetadata("toString")` returns the inherited function, not `undefined`; likewise "constructor", "__proto__", "valueOf" and the other inherited names | `undefined` for every string that is not a rule code, as the documentation states | high, not executed | `JsPropertyLookup.InheritedNameLeaks` | `JsPropertyLookup.CorrectedIgnoresPrototype` |
| frontend/src/engine/ruleRegistry.js:147-182 (and ruleRegistry.ts:161-196) | `Object.freeze` is applied to the registry object and to the list array only; the twelve entry objects they share stay writable | a JavaScript consumer runs `getRuleMetadata("SOVR-001").description = "tampered"`; afterwards both the lookup and `listRuleMetadata()[0]` report "tampered" | no runtime mutation of exported entries, as the file header promises and the freeze comment says it defends against | medium, not executed | `FrozenRegistry.ShallowFreezeLeaks` | `FrozenRegistry.DeepFreezeImmutable` |

The rest of the model uses the corrected behaviour. `RuleRegistry.GetRuleMetadata`
reads own keys only, and the registry values are immutable.

=== FILE: action_request.dfy ===
/**
 `ActionPanel.submit` in `views/AmendmentConsole.js`: validates the actor
 name and builds the POST request for an approve, reject or execute action.
 The request itself is not sent here; the model returns what would be sent.
 */
module ActionRequest {
  import opened JsString
  import opened AmendmentGating

  /** A JSON value in the request body: a string or `null`. */
  datatype JsonValue = JString(text: string) | JNull

  /** What pressing "Confirm" produces: a validation error and no request, or one POST. */
  datatype Submission =
    | ValidationError(message: string)
    | Post(path: string, body: map<string, JsonValue>)

  /** The error shown when the actor is missing. */
  const ActorRequired: string := "Actor name is required."

  /** The body key that carries the actor: execute records who resolved the amendment. */
  function ActorKey(a: Action): string
  {
    if a == Execute then "resolved_by" else "transitioned_by"
  }

  /** `notes.trim() || null`: the trimmed notes, or null when nothing is left. */
  function NormaliseNotes(notes: string): (v: JsonValue)
    ensures v == JNull <==> AllTrimmable(notes)
    ensures v.JString? ==> v.text == Trim(notes) && v.text != []
  {
    var t := Trim(notes);
    if t == [] then JNull else JString(t)
  }

  /** The endpoint for an action on an amendment. */
  function ActionPath(amendmentId: string, a: Action): string
  {
    "/amendments/" + amendmentId + "/" + ActionName(a)
  }

  /**
   `submit`: an actor that is empty after trimming is refused with an error
   and no request; otherwise one POST to the action's endpoint whose body has
   exactly two keys, the actor key for the action with the trimmed actor, and
   `notes`.
   */
  function Submit(amendmentId: string, a: Action, actor: string, notes: string): (r: Submission)
    ensures r.ValidationError? <==> AllTrimmable(actor)
    ensures r.ValidationError? ==> r.message == ActorRequired
    ensures r.Post? ==> r.path == ActionPath(amendmentId, a)
    ensures r.Post? ==> r.body.Keys == {ActorKey(a), "notes"}
    ensures r.Post? ==> r.body[ActorKey(a)] == JString(Trim(actor)) && Trim(actor) != []
    ensures r.Post? ==> r.body["notes"] == NormaliseNotes(notes)
  {
    var who := Trim(actor);
    if who == [] then ValidationError(ActorRequired)
    else Post(ActionPath(amendmentId, a), map[ActorKey(a) := JString(who), "notes" := NormaliseNotes(notes)])
  }

  /**
   Whitespace typed around the actor or the notes changes nothing: the same
   error, or the same request.
   */
  lemma SubmitIgnoresPadding(amendmentId: string, a: Action, actor: string, notes: string,
                             pre: string, post: string)
    requires AllTrimmable(pre) && AllTrimmable(post)
    ensures Submit(amendmentId, a, pre + actor + post, notes) == Submit(amendmentId, a, actor, notes)
    ensures Submit(amendmentId, a, actor, pre + notes + post) == Submit(amendmentId, a, actor, notes)
  {
    TrimIgnoresPadding(pre, actor, post);
    TrimIgnoresPadding(pre, notes, post);
  }

  /**
   A request for execute carries `resolved_by` and no `transitioned_by`; one
   for approve or reject carries `transitioned_by` and no `resolved_by`.
   */
  lemma ActorFieldByAction(amendmentId: string, a: Action, actor: string, notes: string)
    requires !AllTrimmable(actor)
    ensures Submit(amendmentId, a, actor, notes).Post?
    ensures "resolved_by" in Submit(amendmentId, a, actor, notes).body <==> a == Execute
    ensures "transitioned_by" in Submit(amendmentId, a, actor, notes).body <==> a == Approve || a == Reject
  {
    var keys := Submit(amendmentId, a, actor, notes).body.Keys;
    assert keys == {ActorKey(a), "notes"};
    assert "resolved_by" != "notes" && "transitioned_by" != "notes" && "resolved_by" != "transitioned_by";
  }
}

=== FILE: amendment_gating.dfy ===
/**
 The lifecycle gating of the amendment detail panel (`AmendmentDetail` in
 `views/AmendmentConsole.js`): which states count as terminal, which action
 buttons each state offers, and how pressing a button opens or closes the
 action form. Only the console's own gating is modelled; the transition
 rules the backend enforces are not part of this model.
 */
module AmendmentGating {
  import opened Wrappers

  /**
   An amendment's `current_state` as the backend reports it. The console
   compares raw strings, so a string it does not know is kept as it is.
   */
  datatype AmendmentState =
    | Proposed
    | UnderReview
    | Approved
    | Executed
    | Rejected
    | Withdrawn
    | Unrecognised(raw: string)

  /** The six state names the console knows. */
  const KnownStateNames: set<string> :=
    {"PROPOSED", "UNDER_REVIEW", "APPROVED", "EXECUTED", "REJECTED", "WITHDRAWN"}

  /** The wire name of a state. */
  function StateName(s: AmendmentState): string
  {
    match s
    case Proposed => "PROPOSED"
    case UnderReview => "UNDER_REVIEW"
    case Approved => "APPROVED"
    case Executed => "EXECUTED"
    case Rejected => "REJECTED"
    case Withdrawn => "WITHDRAWN"
    case Unrecognised(raw) => raw
  }

  /** Reads a `current_state` string; any name outside the six is unrecognised. */
  function ParseState(raw: string): (s: AmendmentState)
    ensures s.Unrecognised? <==> raw !in KnownStateNames
    ensures StateName(s) == raw
  {
    match raw
    case "PROPOSED" => Proposed
    case "UNDER_REVIEW" => UnderReview
    case "APPROVED" => Approved
    case "EXECUTED" => Executed
    case "REJECTED" => Rejected
    case "WITHDRAWN" => Withdrawn
    case _ => Unrecognised(raw)
  }

  /** A state is well formed when an unrecognised one really carries an unknown name. */
  predicate WellFormed(s: AmendmentState)
  {
    s.Unrecognised? ==> s.raw !in KnownStateNames
  }

  /** Naming a well-formed state and reading the name back gives the state again. */
  lemma ParseStateName(s: AmendmentState)
    requires WellFormed(s)
    ensures ParseState(StateName(s)) == s
  {
  }

  /** The `TERMINAL` set. */
  const Terminal: set<AmendmentState> := {Executed, Rejected, Withdrawn}

  predicate IsTerminal(s: AmendmentState)
  {
    s in Terminal
  }

  /** The three lifecycle actions, named as in the request path. */
  datatype Action = Approve | Reject | Execute

  function ActionName(a: Action): string
  {
    match a
    case Approve => "approve"
    case Reject => "reject"
    case Execute => "execute"
  }

  /**
   The action buttons the detail panel renders for a state: none for a
   terminal state; approve and reject for PROPOSED and UNDER_REVIEW; execute
   for APPROVED.
   */
  function OfferedActions(s: AmendmentState): (r: set<Action>)
    ensures IsTerminal(s) ==> r == {}
    ensures Approve in r <==> s == Proposed || s == UnderReview
    ensures Reject in r <==> s == Proposed || s == UnderReview
    ensures Execute in r <==> s == Approved
    ensures !(Execute in r && Approve in r)
    ensures s.Unrecognised? ==> r == {}
  {
    if IsTerminal(s) then {}
    else
      (if s == Proposed || s == UnderReview then {Approve, Reject} else {})
      + (if s == Approved then {Execute} else {})
  }

  /**
   Reference definition, action by action: the states from which each
   action is offered.
   */
  function OfferedFrom(a: Action): set<AmendmentState>
  {
    match a
    case Approve => {Proposed, UnderReview}
    case Reject => {Proposed, UnderReview}
    case Execute => {Approved}
  }

  /**
   The two descriptions agree, so the terminal test never removes a button
   the per-state tests would show: no action is offered from a terminal state.
   */
  lemma OfferedMatchesOfferedFrom(s: AmendmentState, a: Action)
    ensures a in OfferedActions(s) <==> s in OfferedFrom(a)
    ensures OfferedFrom(a) !! Terminal
  {
  }

  /**
   Pressing an action's button: pressing the selected action again clears
   the selection, pressing any other selects it.
   */
  function Press(selected: Option<Action>, a: Action): (r: Option<Action>)
    ensures r == None <==> selected == Some(a)
    ensures r != None ==> r == Some(a)
  {
    if selected == Some(a) then None else Some(a)
  }

  /** Pressing the same button twice restores a selection that was empty or already that action. */
  lemma PressTwiceRestores(selected: Option<Action>, a: Action)
    requires selected == None || selected == Some(a)
    ensures Press(Press(selected, a), a) == selected
  {
  }

  /** The detail panel's gating state: the amendment's state and the open action form. */
  datatype Detail = Detail(state: AmendmentState, action: Option<Action>)

  /** What can happen to the detail panel. */
  datatype DetailEvent =
    | Pressed(a: Action)               // a click on an action button
    | Cancelled                        // the form's Cancel button
    | Reloaded(raw: string)            // a (re)load, carrying the `current_state` read; also after a submit

  /**
   One event. A click on an action that is not offered cannot happen (its
   button is not rendered) and changes nothing; every load clears the form.
   */
  function DetailStep(d: Detail, e: DetailEvent): (r: Detail)
    ensures e.Reloaded? ==> r == Detail(ParseState(e.raw), None) && WellFormed(r.state)
    ensures WellFormed(d.state) ==> WellFormed(r.state)
    ensures !e.Reloaded? ==> r.state == d.state
    ensures e.Cancelled? ==> r.action == None
    ensures e.Pressed? && e.a !in OfferedActions(d.state) ==> r == d
    ensures e.Pressed? && e.a in OfferedActions(d.state) ==> r.action == Press(d.action, e.a)
  {
    match e
    case Pressed(a) => if a in OfferedActions(d.state) then d.(action := Press(d.action, a)) else d
    case Cancelled => d.(action := None)
    case Reloaded(raw) => Detail(ParseState(raw), None)
  }

  /** An open action form is always for an action the current state offers. */
  ghost predicate FormConsistent(d: Detail)
  {
    d.action.Some? ==> d.action.value in OfferedActions(d.state)
  }

  /** The action form the panel renders: the selected one, and none on a terminal amendment. */
  function ShownForm(d: Detail): (r: Option<Action>)
    ensures r.Some? ==> !IsTerminal(d.state) && r == d.action
    ensures !IsTerminal(d.state) ==> r == d.action
  {
    if IsTerminal(d.state) then None else d.action
  }

  /** While the open form is consistent, the rendered form is exactly the selected action. */
  lemma ShownFormIsOpenForm(d: Detail)
    requires FormConsistent(d)
    ensures ShownForm(d) == d.action
  {
  }

  /** Applies events in order. */
  function DetailRun(d: Detail, es: seq<DetailEvent>): Detail
    decreases |es|
  {
    if es == [] then d else DetailRun(DetailStep(d, es[0]), es[1..])
  }

  /** Every event keeps the open form consistent with the state. */
  lemma DetailStepKeepsFormConsistent(d: Detail, e: DetailEvent)
    requires FormConsistent(d)
    ensures FormConsistent(DetailStep(d, e))
  {
  }

  /**
   From a freshly loaded panel, whatever events follow, an open form is for
   an offered action, so no form is ever shown for a terminal amendment and
   execute is only ever open on an APPROVED one.
   */
  lemma {:induction false} DetailRunKeepsFormConsistent(d: Detail, es: seq<DetailEvent>)
    requires FormConsistent(d)
    ensures FormConsistent(DetailRun(d, es))
    ensures DetailRun(d, es).action == Some(Execute) ==> DetailRun(d, es).state == Approved
    ensures DetailRun(d, es).action.Some? ==> !IsTerminal(DetailRun(d, es).state)
    decreases |es|
  {
    if es != [] {
      DetailStepKeepsFormConsistent(d, es[0]);
      DetailRunKeepsFormConsistent(DetailStep(d, es[0]), es[1..]);
    }
  }
}

=== FILE: amendment_list.dfy ===
/**
 The amendment list of `AmendmentConsole` in `views/AmendmentConsole.js`:
 the query parameters of the list request, the state filter and pagination
 handlers, and the enabling of the Previous / Next buttons. The list, filter,
 page and selection become one `UIState` record and the handlers pure
 functions over it.
 */
module AmendmentList {
  import opened Wrappers
  import opened AmendmentGating

  /** The state filter buttons, in display order. */
  const StateFilters: seq<string> :=
    ["ALL", "PROPOSED", "UNDER_REVIEW", "APPROVED", "EXECUTED", "REJECTED", "WITHDRAWN"]

  /** Rows per page requested from the backend. */
  const PageSize: int := 20

  /** The `params` object of `GET /amendments`. */
  datatype ListParams = ListParams(page: int, pageSize: int, state: Option<string>)

  /**
   `load`'s parameters: always the page and a page size of 20; the state only
   when the filter is not "ALL".
   */
  function BuildParams(page: int, filter: string): (p: ListParams)
    ensures p.page == page && p.pageSize == 20
    ensures p.state.Some? <==> filter != "ALL"
    ensures p.state.Some? ==> p.state.value == filter
  {
    var base := ListParams(page, PageSize, None);
    if filter != "ALL" then base.(state := Some(filter)) else base
  }

  /**
   The filter buttons other than "ALL" each send one of the six known state
   names, and the state they select is recognised.
   */
  lemma FilterButtonsSendKnownStates(page: int, i: int)
    requires 1 <= i < |StateFilters|
    ensures BuildParams(page, StateFilters[i]).state == Some(StateFilters[i])
    ensures StateFilters[i] in KnownStateNames
    ensures !ParseState(StateFilters[i]).Unrecognised?
  {
  }

  /** The list's UI state. */
  datatype UIState = UIState(
    page: int,
    hasNext: bool,
    stateFilter: string,
    selected: Option<string>,
    loading: bool)

  /** The state on mount: page 1, filter "ALL", nothing selected, first load running. */
  const Initial: UIState := UIState(1, false, "ALL", None, true)

  /** `handleFilter`: a new filter starts again from page 1 and clears the selection. */
  function HandleFilter(ui: UIState, filter: string): (r: UIState)
    ensures r.stateFilter == filter && r.page == 1 && r.selected == None
    ensures r.hasNext == ui.hasNext && r.loading == ui.loading
    ensures BuildParams(r.page, r.stateFilter) == BuildParams(1, filter)
  {
    ui.(stateFilter := filter, page := 1, selected := None)
  }

  /** `handlePage`: moves to a page, clears the selection and keeps the filter. */
  function HandlePage(ui: UIState, page: int): (r: UIState)
    ensures r.page == page && r.selected == None
    ensures r.stateFilter == ui.stateFilter && r.hasNext == ui.hasNext && r.loading == ui.loading
    ensures BuildParams(r.page, r.stateFilter).state == BuildParams(ui.page, ui.stateFilter).state
  {
    ui.(page := page, selected := None)
  }

  /** "Previous" is disabled on page 1 and while loading. */
  predicate PrevEnabled(ui: UIState): (r: bool)
    ensures r ==> ui.page != 1 && !ui.loading
    ensures Valid(ui) ==> (r <==> ui.page > 1 && !ui.loading)
  {
    !(ui.page == 1 || ui.loading)
  }

  /** What can happen to the list. */
  datatype ListEvent =
    | FilterClicked(filter: string)
    | PrevClicked
    | NextClicked
    | RefreshClicked
    | RowClicked(id: string)
    | DetailClosed
    | LoadStarted
    | LoadFinished(hasNext: bool)

  /**
   One event. A filter button applies `handleFilter`, an enabled Previous or
   Next applies `handlePage`, and Refresh clears the selection (the reload it
   starts arrives as `LoadStarted` / `LoadFinished`). A click on a disabled
   button, or on a filter that has no button, changes nothing.
   */
  function ListStep(ui: UIState, e: ListEvent): (r: UIState)
    ensures e.PrevClicked? && !PrevEnabled(ui) ==> r == ui
    ensures e.NextClicked? && (!ui.hasNext || ui.loading) ==> r == ui
    ensures e.FilterClicked? && e.filter !in StateFilters ==> r == ui
    ensures e.FilterClicked? || r.stateFilter == ui.stateFilter
    ensures e.PrevClicked? || e.NextClicked? || e.FilterClicked? || r.page == ui.page
    ensures e.FilterClicked? && e.filter in StateFilters ==> r == HandleFilter(ui, e.filter)
    ensures e.PrevClicked? && PrevEnabled(ui) ==> r == HandlePage(ui, ui.page - 1)
    ensures e.NextClicked? && ui.hasNext && !ui.loading ==> r == HandlePage(ui, ui.page + 1)
    ensures e.RefreshClicked? ==> r == if ui.loading then ui else ui.(selected := None)
    ensures e.DetailClosed? ==> r == ui.(selected := None)
    ensures e.RowClicked? ==> r == ui.(selected := Some(e.id))
  {
    match e
    case FilterClicked(filter) => if filter in StateFilters then HandleFilter(ui, filter) else ui
    case PrevClicked => if PrevEnabled(ui) then HandlePage(ui, ui.page - 1) else ui
    case NextClicked => if ui.hasNext && !ui.loading then HandlePage(ui, ui.page + 1) else ui
    case RefreshClicked => if ui.loading then ui else ui.(selected := None)
    case RowClicked(id) => ui.(selected := Some(id))
    case DetailClosed => ui.(selected := None)
    case LoadStarted => ui.(loading := true)
    case LoadFinished(hasNext) => ui.(hasNext := hasNext, loading := false)
  }

  /** Applies events in order. */
  function ListRun(ui: UIState, es: seq<ListEvent>): UIState
    decreases |es|
  {
    if es == [] then ui else ListRun(ListStep(ui, es[0]), es[1..])
  }

  /** The list's invariant: a page of at least 1 and a filter that has a button. */
  ghost predicate Valid(ui: UIState)
  {
    ui.page >= 1 && ui.stateFilter in StateFilters
  }

  /** Every event keeps the invariant; in particular "Previous" never leaves page 1 downwards. */
  lemma ListStepKeepsValid(ui: UIState, e: ListEvent)
    requires Valid(ui)
    ensures Valid(ListStep(ui, e))
    ensures e == PrevClicked && ui.page == 1 ==> ListStep(ui, e).page == 1
  {
  }

  /**
   A click on a disabled Previous or Next button changes nothing, and an
   enabled one moves exactly one page.
   */
  lemma DisabledClicksChangeNothing(ui: UIState)
    ensures ui.page == 1 || ui.loading ==> ListStep(ui, PrevClicked) == ui
    ensures !ui.hasNext || ui.loading ==> ListStep(ui, NextClicked) == ui
    ensures PrevEnabled(ui) ==> ListStep(ui, PrevClicked).page == ui.page - 1
    ensures ui.hasNext && !ui.loading ==> ListStep(ui, NextClicked).page == ui.page + 1
  {
  }

  /**
   From the initial state, whatever the user clicks and whatever the backend
   answers, the page stays at least 1, the filter stays a button value, and
   the request carries either no state or one of the six known state names.
   */
  lemma {:induction false} ReachableStatesValid(ui: UIState, es: seq<ListEvent>)
    requires Valid(ui)
    ensures Valid(ListRun(ui, es))
    ensures var p := BuildParams(ListRun(ui, es).page, ListRun(ui, es).stateFilter);
      p.state.None? || p.state.value in KnownStateNames
    decreases |es|
  {
    if es != [] {
      ListStepKeepsValid(ui, es[0]);
      ReachableStatesValid(ListStep(ui, es[0]), es[1..]);
    } else {
      var i :| 0 <= i < |StateFilters| && StateFilters[i] == ui.stateFilter;
      if i > 0 {
        FilterButtonsSendKnownStates(ui.page, i);
      }
    }
  }

  /** The initial state satisfies the invariant. */
  lemma InitialValid()
    ensures Valid(Initial)
  {
  }
}

=== FILE: frozen_registry.dfy ===
/**
 The registry files as heap objects, to state what `Object.freeze` protects.
 Both files freeze the registry object and the list array, but not the
 twelve entry objects those two share: `Object.freeze` is shallow, so a
 consumer's write such as `getRuleMetadata("SOVR-001").description = "x"`
 succeeds and is seen by every later `getRuleMetadata` and
 `listRuleMetadata` call. Freezing every object (a deep freeze) is the
 corrected construction; the immutable values of `RuleRegistry` are what it
 yields.
 */
module FrozenRegistry {
  import opened Wrappers
  import opened RuleRegistry

  /**
   An object reference. An entry object is named by the key under which the
   registry literal allocated it.
   */
  datatype Ref = EntryObject(id: string) | RegistryObject | ListObject

  /**
   The objects of the registry module: the entry objects, the registry
   object's properties (code to entry object), the list array's elements,
   and the set of frozen objects.
   */
  datatype Heap = Heap(
    entries: map<string, Entry>,
    slots: map<string, string>,
    items: seq<string>,
    frozen: set<Ref>)

  /** The five properties of an entry object. */
  datatype Field = RuleCodeField | DomainField | DescriptionField | DocumentReferenceField | IntroducedInField

  /** A write a consumer can attempt through the references the accessors hand out. */
  datatype Write =
    | SetField(id: string, field: Field, text: string)
    | SetSlot(key: string, target: string)
    | DeleteSlot(key: string)
    | SetItem(index: nat, target: string)

  function WithField(e: Entry, f: Field, text: string): Entry
  {
    match f
    case RuleCodeField => e.(ruleCode := text)
    case DomainField => e.(domain := text)
    case DescriptionField => e.(description := text)
    case DocumentReferenceField => e.(documentReference := text)
    case IntroducedInField => e.(introducedInPolicyVersion := text)
  }

  /**
   Carries out a write. A write to a frozen object or to a missing one
   changes nothing (strict-mode code gets a TypeError, sloppy-mode code is
   ignored; either way the heap is as before).
   */
  function Perform(h: Heap, w: Write): (h': Heap)
    ensures h'.frozen == h.frozen
    ensures RegistryObject in h.frozen ==> h'.slots == h.slots
    ensures ListObject in h.frozen ==> h'.items == h.items
    ensures forall id :: id in h.entries && EntryObject(id) in h.frozen ==> id in h'.entries && h'.entries[id] == h.entries[id]
  {
    match w
    case SetField(id, f, text) =>
      if EntryObject(id) in h.frozen || id !in h.entries then h
      else h.(entries := h.entries[id := WithField(h.entries[id], f, text)])
    case SetSlot(key, target) =>
      if RegistryObject in h.frozen then h else h.(slots := h.slots[key := target])
    case DeleteSlot(key) =>
      if RegistryObject in h.frozen then h else h.(slots := h.slots - {key})
    case SetItem(index, target) =>
      if ListObject in h.frozen || index >= |h.items| then h else h.(items := h.items[index := target])
  }

  /** Carries out a sequence of writes in order. */
  function PerformAll(h: Heap, ws: seq<Write>): Heap
    decreases |ws|
  {
    if ws == [] then h else PerformAll(Perform(h, ws[0]), ws[1..])
  }

  /** The entry object named `id`, if there is one. */
  function Deref(h: Heap, id: string): Option<Entry>
  {
    if id in h.entries then Some(h.entries[id]) else None
  }

  /** `getRuleMetadata` through the heap: follow the registry property, read the entry object. */
  function ObservedLookup(h: Heap, code: string): Option<Entry>
  {
    if code in h.slots then Deref(h, h.slots[code]) else None
  }

  /** `listRuleMetadata` through the heap: the entry objects the list array points to. */
  function ObservedList(h: Heap): seq<Option<Entry>>
  {
    seq(|h.items|, i requires 0 <= i < |h.items| => Deref(h, h.items[i]))
  }

  /** The registry's lookups and list as the immutable model reports them. */
  function Expected(): seq<Option<Entry>>
  {
    seq(12, i requires 0 <= i < 12 => Some(ListRuleMetadata()[i]))
  }

  /**
   The objects the module creates: one entry object per literal key, the
   registry object pointing each code at its entry, and the list array
   reading the entries in the declared order. Nothing is frozen yet.
   */
  function RegistryHeap(): Heap
  {
    Heap(Registry, map c | c in Registry :: c, DeclaredOrder, {})
  }

  /** As written: `Object.freeze` on the registry object and on the list array only. */
  function ShallowFrozen(): (h: Heap)
  {
    RegistryHeap().(frozen := {RegistryObject, ListObject})
  }

  /** Every object of the heap is frozen. */
  ghost predicate FullyFrozen(h: Heap)
  {
    && RegistryObject in h.frozen
    && ListObject in h.frozen
    && forall id :: id in h.entries ==> EntryObject(id) in h.frozen
  }

  /** Corrected: the registry object, the list array and every entry object frozen. */
  function DeepFrozen(): (h: Heap)
    ensures FullyFrozen(h)
    ensures h.(frozen := {}) == RegistryHeap()
  {
    var h := RegistryHeap();
    h.(frozen := {RegistryObject, ListObject} + set id | id in h.entries :: EntryObject(id))
  }

  /** Freshly built, the heap shows exactly the registry's lookups and list. */
  lemma RegistryHeapShowsRegistry(code: string)
    ensures ObservedLookup(RegistryHeap(), code) == GetRuleMetadata(code)
    ensures ObservedList(RegistryHeap()) == Expected()
  {
    var list := ListRuleMetadata();
    assert forall i :: 0 <= i < 12 ==> Registry[DeclaredOrder[i]] == list[i];
  }

  /**
   The discrepancy: with the shallow freeze, one write to the entry object
   of "SOVR-001" changes what `getRuleMetadata("SOVR-001")` and the list's
   first element report afterwards.
   */
  lemma ShallowFreezeLeaks()
    ensures var h' := Perform(ShallowFrozen(), SetField("SOVR-001", DescriptionField, "tampered"));
      && ObservedLookup(h', "SOVR-001") != GetRuleMetadata("SOVR-001")
      && ObservedList(h')[0] != Expected()[0]
  {
    RegistryHeapShowsRegistry("SOVR-001");
    var e := Registry["SOVR-001"];
    var h' := Perform(ShallowFrozen(), SetField("SOVR-001", DescriptionField, "tampered"));
    assert h'.entries["SOVR-001"] == e.(description := "tampered");
    assert ObservedList(h')[0] == Some(e.(description := "tampered"));
  }

  /** What the shallow freeze does protect: no write adds, removes or repoints a code or a list element. */
  lemma ShallowFreezeKeepsShape(ws: seq<Write>)
    ensures PerformAll(ShallowFrozen(), ws).slots == ShallowFrozen().slots
    ensures PerformAll(ShallowFrozen(), ws).items == ShallowFrozen().items
  {
    ShallowKeepsShape(ShallowFrozen(), ws);
  }

  lemma {:induction false} ShallowKeepsShape(h: Heap, ws: seq<Write>)
    requires RegistryObject in h.frozen && ListObject in h.frozen
    ensures PerformAll(h, ws).slots == h.slots && PerformAll(h, ws).items == h.items
    decreases |ws|
  {
    if ws != [] {
      ShallowKeepsShape(Perform(h, ws[0]), ws[1..]);
    }
  }

  /** A heap whose every object is frozen is left unchanged by any sequence of writes. */
  lemma {:induction false} FullyFrozenIgnoresWrites(h: Heap, ws: seq<Write>)
    requires FullyFrozen(h)
    ensures PerformAll(h, ws) == h
    decreases |ws|
  {
    if ws != [] {
      FullyFrozenIgnoresWrites(Perform(h, ws[0]), ws[1..]);
    }
  }

  /**
   Corrected: after the deep freeze, whatever writes a consumer attempts,
   every lookup and the list still report the registry's literal entries.
   */
  lemma DeepFreezeImmutable(ws: seq<Write>, code: string)
    ensures ObservedLookup(PerformAll(DeepFrozen(), ws), code) == GetRuleMetadata(code)
    ensures ObservedList(PerformAll(DeepFrozen(), ws)) == Expected()
  {
    FullyFrozenIgnoresWrites(DeepFrozen(), ws);
    FreezingKeepsView(RegistryHeap(), DeepFrozen().frozen, code);
    RegistryHeapShowsRegistry(code);
  }

  /** Freezing objects does not change what the accessors report. */
  lemma FreezingKeepsView(h: Heap, frozen: set<Ref>, code: string)
    ensures ObservedLookup(h.(frozen := frozen), code) == ObservedLookup(h, code)
    ensures ObservedList(h.(frozen := frozen)) == ObservedList(h)
  {
  }
}

=== FILE: js_property_lookup.dfy ===
/**
 What the bracket read `RULE_REGISTRY_BY_CODE[ruleCode]` in both registry
 files does at run time. The registry is a plain object literal, so a read
 that misses its own keys continues along the prototype chain and finds the
 members every object inherits from `Object.prototype`: the accessor then
 returns a function (or the prototype itself) instead of `undefined`.

 `RuleRegistry.GetRuleMetadata` is the corrected lookup (own keys only); this
 module models the read as written and relates the two.
 */
module JsPropertyLookup {
  import opened Wrappers
  import opened RuleRegistry

  /** The value a bracket read on the registry object can produce. */
  datatype PropertyValue =
    | OwnEntry(entry: Entry)   // an own property of the literal object
    | Inherited(name: string)  // a member of Object.prototype
    | Undefined

  /** The property names a plain object inherits from `Object.prototype`. */
  const ObjectPrototypeNames: set<string> := {
    "constructor", "hasOwnProperty", "isPrototypeOf", "propertyIsEnumerable",
    "toLocaleString", "toString", "valueOf", "__proto__",
    "__defineGetter__", "__defineSetter__", "__lookupGetter__", "__lookupSetter__"
  }

  /** No inherited name is a rule code (codes are eight characters and start upper-case). */
  lemma PrototypeNamesAreNotCodes()
    ensures forall name :: name in ObjectPrototypeNames ==> name !in DeclaredOrder
  {
    assert forall i :: 0 <= i < |DeclaredOrder| ==> |DeclaredOrder[i]| == 8 && 'A' <= DeclaredOrder[i][0] <= 'Z';
    assert forall name :: name in ObjectPrototypeNames ==> |name| != 8 || name[0] == 't';
  }

  /** Bracket read on a plain object whose own properties are `m`. */
  function ReadProperty(m: map<string, Entry>, key: string): PropertyValue
  {
    if key in m then OwnEntry(m[key])
    else if key in ObjectPrototypeNames then Inherited(key)
    else Undefined
  }

  /** `getRuleMetadata` exactly as both files write it. */
  function GetRuleMetadataAsWritten(code: string): (r: PropertyValue)
    ensures r.OwnEntry? <==> code in DeclaredOrder
    ensures r.Inherited? <==> code in ObjectPrototypeNames
    ensures r.OwnEntry? ==> r.entry.ruleCode == code
    ensures r.Inherited? ==> r.name == code
  {
    PrototypeNamesAreNotCodes();
    ReadProperty(RegistryByCode, code)
  }

  /** The corrected lookup read as a JavaScript value: an entry or undefined. */
  function AsPropertyValue(r: Option<Entry>): PropertyValue
  {
    match r
    case Some(e) => OwnEntry(e)
    case None => Undefined
  }

  /**
   The discrepancy: "toString" is not a rule code, yet the lookup as written
   does not come back undefined.
   */
  lemma InheritedNameLeaks()
    ensures "toString" !in DeclaredOrder
    ensures GetRuleMetadataAsWritten("toString") == Inherited("toString")
    ensures GetRuleMetadataAsWritten("toString") != AsPropertyValue(GetRuleMetadata("toString"))
  {
  }

  /** The corrected lookup is absent for every inherited name. */
  lemma CorrectedIgnoresPrototype(name: string)
    requires name in ObjectPrototypeNames
    ensures GetRuleMetadata(name) == None
  {
    PrototypeNamesAreNotCodes();
  }

  /** Away from the inherited names the lookup as written and the corrected one agree. */
  lemma AsWrittenAgreesOffPrototype(code: string)
    requires code !in ObjectPrototypeNames
    ensures GetRuleMetadataAsWritten(code) == AsPropertyValue(GetRuleMetadata(code))
  {
  }
}

=== FILE: js_string.dfy ===
/**
 ECMAScript `String.prototype.trim`, which the amendment console applies to
 the actor name and to the notes before validating and sending them.
 Strings are sequences of code points; `trim` only strips code points of the
 Basic Multilingual Plane, so for a well-formed string reading it as UTF-16
 code units would give the same result. A JavaScript string holding an
 unpaired surrogate has no counterpart here: a `char` cannot hold one.
 */
module JsString {

  /**
   The code points `trim` strips: ECMAScript WhiteSpace (tab, vertical tab,
   form feed, zero-width no-break space and every Space_Separator) and
   LineTerminator (line feed, carriage return, line and paragraph separator).
   */
  predicate IsTrimmable(c: char)
  {
    || c == '\U{9}' || c == '\U{A}' || c == '\U{B}' || c == '\U{C}' || c == '\U{D}'
    || c == ' ' || c == '\U{A0}' || c == '\U{1680}'
    || ('\U{2000}' <= c <= '\U{200A}')
    || c == '\U{2028}' || c == '\U{2029}' || c == '\U{202F}' || c == '\U{205F}'
    || c == '\U{3000}' || c == '\U{FEFF}'
  }

  /** Every code point of `s` is stripped by `trim` (so `s.trim()` is falsy). */
  predicate AllTrimmable(s: string)
  {
    forall i :: 0 <= i < |s| ==> IsTrimmable(s[i])
  }

  /** Strips leading trimmable code points. */
  function TrimStart(s: string): (r: string)
    ensures |r| <= |s| && r == s[|s| - |r|..]
    ensures AllTrimmable(s[..|s| - |r|])
    ensures r == [] || !IsTrimmable(r[0])
  {
    if s != [] && IsTrimmable(s[0]) then TrimStart(s[1..]) else s
  }

  /** Strips trailing trimmable code points. */
  function TrimEnd(s: string): (r: string)
    ensures |r| <= |s| && r == s[..|r|]
    ensures AllTrimmable(s[|r|..])
    ensures r == [] || !IsTrimmable(r[|r| - 1])
  {
    if s != [] && IsTrimmable(s[|s| - 1]) then TrimEnd(s[..|s| - 1]) else s
  }

  /**
   `s.trim()`: the slice of `s` left after stripping trimmable code points
   from both ends. It is empty exactly when `s` holds nothing else.
   */
  function Trim(s: string): (r: string)
    ensures r == [] <==> AllTrimmable(s)
    ensures r == [] || (!IsTrimmable(r[0]) && !IsTrimmable(r[|r| - 1]))
  {
    TrimEnd(TrimStart(s))
  }

  /** `trim` removes only trimmable code points, and only from the two ends. */
  lemma TrimIsSlice(s: string)
    ensures exists i ::
              && 0 <= i <= |s| - |Trim(s)|
              && Trim(s) == s[i..i + |Trim(s)|]
              && AllTrimmable(s[..i])
              && AllTrimmable(s[i + |Trim(s)|..])
  {
    var t := TrimStart(s);
    var r := TrimEnd(t);
    var i := |s| - |t|;
    assert r == s[i..i + |r|];
    assert s[i + |r|..] == t[|r|..];
  }

  /** Leading trimmable padding does not change `TrimStart`. */
  lemma {:induction false} TrimStartSkipsPadding(pre: string, s: string)
    requires AllTrimmable(pre)
    ensures TrimStart(pre + s) == TrimStart(s)
  {
    if pre != [] {
      assert (pre + s)[1..] == pre[1..] + s;
      TrimStartSkipsPadding(pre[1..], s);
    } else {
      assert pre + s == s;
    }
  }

  /** Trailing trimmable padding does not change `TrimEnd`. */
  lemma {:induction false} TrimEndSkipsPadding(s: string, post: string)
    requires AllTrimmable(post)
    ensures TrimEnd(s + post) == TrimEnd(s)
  {
    if post != [] {
      var p := post[..|post| - 1];
      assert (s + post)[..|s + post| - 1] == s + p;
      TrimEndSkipsPadding(s, p);
    } else {
      assert s + post == s;
    }
  }

  /** `TrimStart` of a string with some non-trimmable code point keeps anything appended. */
  lemma {:induction false} TrimStartKeepsSuffix(s: string, post: string)
    requires !AllTrimmable(s)
    ensures TrimStart(s + post) == TrimStart(s) + post
  {
    if IsTrimmable(s[0]) {
      assert (s + post)[1..] == s[1..] + post;
      TrimStartKeepsSuffix(s[1..], post);
    }
  }

  /** Surrounding the input with trimmable padding does not change `trim`. */
  lemma TrimIgnoresPadding(pre: string, s: string, post: string)
    requires AllTrimmable(pre) && AllTrimmable(post)
    ensures Trim(pre + s + post) == Trim(s)
  {
    assert pre + s + post == pre + (s + post);
    TrimStartSkipsPadding(pre, s + post);
    if AllTrimmable(s) {
      assert AllTrimmable(s + post);
      assert Trim(s + post) == [];
    } else {
      TrimStartKeepsSuffix(s, post);
      TrimEndSkipsPadding(TrimStart(s), post);
    }
  }

  /** Trimming twice is trimming once. */
  lemma TrimIdempotent(s: string)
    ensures Trim(Trim(s)) == Trim(s)
  {
  }
}

=== FILE: rule_registry.dfy ===
/**
 The deterministic, metadata-only rule registry of `engine/ruleRegistry.ts`:
 a frozen map from rule code to a five-field metadata record, a literal list
 view of the same entries in authoritative order, and the two read-only
 accessors `getRuleMetadata` and `listRuleMetadata`.

 The frozen JavaScript objects become immutable Dafny values, so no operation
 of this module can insert, remove or change an entry.
 */
module RuleRegistry {
  import opened Wrappers

  /** Analyzer-level policy version the registry is aligned to. */
  const PolicyVersion: string := "1.0.0"

  /** One rule's metadata; every field is a readonly string. */
  datatype Entry = Entry(
    ruleCode: string,
    domain: string,
    description: string,
    documentReference: string,
    introducedInPolicyVersion: string)

  /** The rule codes in authoritative, append-only order. */
  const DeclaredOrder: seq<string> := [
    "SOVR-001", "SOVR-002", "SOVR-003", "SOVR-004", "COMP-001", "CINT-001",
    "CINT-002", "CINT-003", "SUBS-001", "INTF-001", "PROD-001", "PROD-002"
  ]

  /** The literal registry object, keyed by rule code. */
  const RegistryInternal: map<string, Entry> := map[
    "SOVR-001" := Entry("SOVR-001", "governance", "Metadata-only registry entry for authoritative governance rule.", "Canonical Governance Rules", "1.0.0"),
    "SOVR-002" := Entry("SOVR-002", "governance", "Metadata-only registry entry for authoritative governance rule.", "Canonical Governance Rules", "1.0.0"),
    "SOVR-003" := Entry("SOVR-003", "governance", "Metadata-only registry entry for authoritative governance rule.", "Canonical Governance Rules", "1.0.0"),
    "SOVR-004" := Entry("SOVR-004", "governance", "Metadata-only registry entry for authoritative governance rule.", "Canonical Governance Rules", "1.0.0"),
    "COMP-001" := Entry("COMP-001", "governance", "Metadata-only registry entry for authoritative governance rule.", "Canonical Governance Rules", "1.0.0"),
    "CINT-001" := Entry("CINT-001", "governance", "Metadata-only registry entry for authoritative governance rule.", "Canonical Governance Rules", "1.0.0"),
    "CINT-002" := Entry("CINT-002", "governance", "Metadata-only registry entry for authoritative governance rule.", "Canonical Governance Rules", "1.0.0"),
    "CINT-003" := Entry("CINT-003", "governance", "Metadata-only registry entry for authoritative governance rule.", "Canonical Governance Rules", "1.0.0"),
    "SUBS-001" := Entry("SUBS-001", "governance", "Metadata-only registry entry for authoritative governance rule.", "Canonical Governance Rules", "1.0.0"),
    "INTF-001" := Entry("INTF-001", "governance", "Metadata-only registry entry for authoritative governance rule.", "Canonical Governance Rules", "1.0.0"),
    "PROD-001" := Entry("PROD-001", "governance", "Metadata-only registry entry for authoritative governance rule.", "Canonical Governance Rules", "1.0.0"),
    "PROD-002" := Entry("PROD-002", "governance", "Metadata-only registry entry for authoritative governance rule.", "Canonical Governance Rules", "1.0.0")
  ]

  /** The frozen registry object, modelled by its deep-frozen (corrected) value; the shallow freeze as written is in `FrozenRegistry`. */
  const Registry: map<string, Entry> := RegistryInternal

  /** Second export kept for older callers; an alias of `Registry`. */
  const RegistryByCode: map<string, Entry> := Registry

  /** The literal list view, one element per code in authoritative order. */
  const RegistryList: seq<Entry> := [
    RegistryInternal["SOVR-001"],
    RegistryInternal["SOVR-002"],
    RegistryInternal["SOVR-003"],
    RegistryInternal["SOVR-004"],
    RegistryInternal["COMP-001"],
    RegistryInternal["CINT-001"],
    RegistryInternal["CINT-002"],
    RegistryInternal["CINT-003"],
    RegistryInternal["SUBS-001"],
    RegistryInternal["INTF-001"],
    RegistryInternal["PROD-001"],
    RegistryInternal["PROD-002"]
  ]

  /* ---------------------------------------------------------------------- */
  /* Shape predicates shared by both registry files                          */
  /* ---------------------------------------------------------------------- */

  /** The codes of a list of entries, in list order. */
  function CodesOf(list: seq<Entry>): (codes: seq<string>)
    ensures |codes| == |list|
    ensures forall i :: 0 <= i < |list| ==> codes[i] == list[i].ruleCode
  {
    if list == [] then [] else [list[0].ruleCode] + CodesOf(list[1..])
  }

  /** Every entry is stored under its own code. */
  ghost predicate KeyedByCode(m: map<string, Entry>) {
    forall k :: k in m ==> m[k].ruleCode == k
  }

  /** No two positions of `codes` hold the same code. */
  ghost predicate Distinct(codes: seq<string>) {
    forall i, j :: 0 <= i < |codes| && 0 <= j < |codes| && i != j ==> codes[i] != codes[j]
  }

  /** Every list element is the map's entry for its own code. */
  ghost predicate ListMatchesMap(list: seq<Entry>, m: map<string, Entry>) {
    forall i :: 0 <= i < |list| ==> list[i].ruleCode in m && m[list[i].ruleCode] == list[i]
  }

  /** Property read on a frozen map that has only own keys: absent on a miss. */
  function Lookup(m: map<string, Entry>, code: string): (r: Option<Entry>)
    ensures r.Some? <==> code in m
    ensures r.Some? ==> r.value == m[code]
  {
    if code in m then Some(m[code]) else None
  }

  /**
   Reference definition of a lookup that scans a flat list: the first entry
   whose code matches, or absent.
   */
  function FindFirst(list: seq<Entry>, code: string): (r: Option<Entry>)
  {
    if list == [] then None
    else if list[0].ruleCode == code then Some(list[0])
    else FindFirst(list[1..], code)
  }

  /* ---------------------------------------------------------------------- */
  /* Public accessors                                                        */
  /* ---------------------------------------------------------------------- */

  /**
   `getRuleMetadata`: the entry for a registered code, absent (never an
   error) for any other string.
   */
  function GetRuleMetadata(code: string): (r: Option<Entry>)
    ensures r.Some? <==> code in DeclaredOrder
    ensures r.Some? ==> r.value.ruleCode == code
    ensures r.Some? ==> r.value.introducedInPolicyVersion == PolicyVersion
    ensures r.Some? ==> r.value in RegistryList
  {
    Lookup(RegistryByCode, code)
  }

  /** `listRuleMetadata`: all twelve entries in the declared order. */
  function ListRuleMetadata(): (r: seq<Entry>)
    ensures |r| == |DeclaredOrder| == 12
    ensures forall i :: 0 <= i < |r| ==> r[i].ruleCode == DeclaredOrder[i]
    ensures ListMatchesMap(r, Registry)
  {
    RegistryList
  }

  /* ---------------------------------------------------------------------- */
  /* Properties of the registry                                              */
  /* ---------------------------------------------------------------------- */

  /** Every entry's `ruleCode` equals the key it is stored under. */
  lemma KeysMatchCodes()
    ensures KeyedByCode(Registry)
  {
  }

  /** Each list element is exactly what a lookup of its own code returns. */
  lemma ListEntriesAreLookups()
    ensures forall i :: 0 <= i < |ListRuleMetadata()| ==>
      GetRuleMetadata(ListRuleMetadata()[i].ruleCode) == Some(ListRuleMetadata()[i])
  {
  }

  /** The declared order names twelve pairwise different codes. */
  lemma DeclaredOrderDistinct()
    ensures Distinct(DeclaredOrder)
  {
    forall i, j | 0 <= i < |DeclaredOrder| && 0 <= j < |DeclaredOrder| && i != j
      ensures DeclaredOrder[i] != DeclaredOrder[j]
    {
      // the first, second and last characters already tell the codes apart
      assert DeclaredOrder[i][0] != DeclaredOrder[j][0] || DeclaredOrder[i][1] != DeclaredOrder[j][1]
        || DeclaredOrder[i][7] != DeclaredOrder[j][7];
    }
  }

  /** The list view's codes are the declared order. */
  lemma ListCodesInDeclaredOrder()
    ensures CodesOf(ListRuleMetadata()) == DeclaredOrder
  {
    var list := ListRuleMetadata();
    assert |CodesOf(list)| == |DeclaredOrder|;
  }

  /** No rule code appears twice in the list view. */
  lemma ListCodesDistinct()
    ensures Distinct(CodesOf(ListRuleMetadata()))
  {
    ListCodesInDeclaredOrder();
    DeclaredOrderDistinct();
  }

  /** The listed codes are exactly the keys of the map. */
  lemma ListCodesAreKeys()
    ensures forall code :: code in Registry <==> code in CodesOf(ListRuleMetadata())
  {
    ListCodesInDeclaredOrder();
    forall code ensures code in Registry <==> code in DeclaredOrder {
      assert GetRuleMetadata(code).Some? <==> code in Registry;
    }
  }

  /** A scan of a list finds an entry exactly when some element carries the code. */
  lemma {:induction false} FindFirstFinds(list: seq<Entry>, code: string)
    ensures FindFirst(list, code).Some? <==> code in CodesOf(list)
    ensures FindFirst(list, code).Some? ==>
      FindFirst(list, code).value.ruleCode == code && FindFirst(list, code).value in list
  {
    if list != [] {
      FindFirstFinds(list[1..], code);
      assert CodesOf(list) == [list[0].ruleCode] + CodesOf(list[1..]);
    }
  }

  /**
   Looking a code up in the map gives the same answer as scanning the ordered
   list for it: the entry when the code is registered, absent otherwise.
   */
  lemma LookupAgreesWithListScan(code: string)
    ensures GetRuleMetadata(code) == FindFirst(ListRuleMetadata(), code)
  {
    var list := ListRuleMetadata();
    FindFirstFinds(list, code);
    ListCodesInDeclaredOrder();
  }

  /** The alias export answers every lookup exactly as the registry does. */
  lemma AliasLookupsAgree(code: string)
    ensures Lookup(RegistryByCode, code) == Lookup(Registry, code)
  {
  }

  /** Every entry was introduced at the current policy version. */
  lemma EntriesIntroducedAtPolicyVersion()
    ensures PolicyVersion == "1.0.0"
    ensures forall k :: k in Registry ==> Registry[k].introducedInPolicyVersion == PolicyVersion
  {
  }
}

=== FILE: rule_registry_js.dfy ===
/**
 The plain-JavaScript twin of the rule registry, `engine/ruleRegistry.js`.
 It spells out its own literal registry object and literal list view, so it
 is modelled from its own literals and then shown to be the same registry as
 the TypeScript file.
 */
module RuleRegistryJs {
  import opened Wrappers
  import opened RuleRegistry

  /** The twin's own policy version string. */
  const JsPolicyVersion: string := "1.0.0"

  /** The twin's literal registry object, keyed by rule code. */
  const JsRegistryInternal: map<string, Entry> := map[
    "SOVR-001" := Entry("SOVR-001", "governance", "Metadata-only registry entry for authoritative governance rule.", "Canonical Governance Rules", "1.0.0"),
    "SOVR-002" := Entry("SOVR-002", "governance", "Metadata-only registry entry for authoritative governance rule.", "Canonical Governance Rules", "1.0.0"),
    "SOVR-003" := Entry("SOVR-003", "governance", "Metadata-only registry entry for authoritative governance rule.", "Canonical Governance Rules", "1.0.0"),
    "SOVR-004" := Entry("SOVR-004", "governance", "Metadata-only registry entry for authoritative governance rule.", "Canonical Governance Rules", "1.0.0"),
    "COMP-001" := Entry("COMP-001", "governance", "Metadata-only registry entry for authoritative governance rule.", "Canonical Governance Rules", "1.0.0"),
    "CINT-001" := Entry("CINT-001", "governance", "Metadata-only registry entry for authoritative governance rule.", "Canonical Governance Rules", "1.0.0"),
    "CINT-002" := Entry("CINT-002", "governance", "Metadata-only registry entry for authoritative governance rule.", "Canonical Governance Rules", "1.0.0"),
    "CINT-003" := Entry("CINT-003", "governance", "Metadata-only registry entry for authoritative governance rule.", "Canonical Governance Rules", "1.0.0"),
    "SUBS-001" := Entry("SUBS-001", "governance", "Metadata-only registry entry for authoritative governance rule.", "Canonical Governance Rules", "1.0.0"),
    "INTF-001" := Entry("INTF-001", "governance", "Metadata-only registry entry for authoritative governance rule.", "Canonical Governance Rules", "1.0.0"),
    "PROD-001" := Entry("PROD-001", "governance", "Metadata-only registry entry for authoritative governance rule.", "Canonical Governance Rules", "1.0.0"),
    "PROD-002" := Entry("PROD-002", "governance", "Metadata-only registry entry for authoritative governance rule.", "Canonical Governance Rules", "1.0.0")
  ]

  /** The frozen registry object, modelled by its deep-frozen (corrected) value; the shallow freeze as written is in `FrozenRegistry`. */
  const JsRegistry: map<string, Entry> := JsRegistryInternal

  /** The alias export `RULE_REGISTRY_BY_CODE`. */
  const JsRegistryByCode: map<string, Entry> := JsRegistry

  /** The twin's literal list view. */
  const JsRegistryList: seq<Entry> := [
    JsRegistryInternal["SOVR-001"],
    JsRegistryInternal["SOVR-002"],
    JsRegistryInternal["SOVR-003"],
    JsRegistryInternal["SOVR-004"],
    JsRegistryInternal["COMP-001"],
    JsRegistryInternal["CINT-001"],
    JsRegistryInternal["CINT-002"],
    JsRegistryInternal["CINT-003"],
    JsRegistryInternal["SUBS-001"],
    JsRegistryInternal["INTF-001"],
    JsRegistryInternal["PROD-001"],
    JsRegistryInternal["PROD-002"]
  ]

  /** `getRuleMetadata` of the twin: the entry for a registered code, absent otherwise. */
  function JsGetRuleMetadata(code: string): (r: Option<Entry>)
    ensures r.Some? <==> code in DeclaredOrder
    ensures r.Some? ==> r.value.ruleCode == code
    ensures r.Some? ==> r.value.introducedInPolicyVersion == JsPolicyVersion
    ensures r.Some? ==> r.value in JsRegistryList
  {
    Lookup(JsRegistryByCode, code)
  }

  /** `listRuleMetadata` of the twin: the twelve entries in the declared order. */
  function JsListRuleMetadata(): (r: seq<Entry>)
    ensures |r| == |DeclaredOrder| == 12
    ensures forall i :: 0 <= i < |r| ==> r[i].ruleCode == DeclaredOrder[i]
    ensures ListMatchesMap(r, JsRegistry)
  {
    JsRegistryList
  }

  /** Every entry of the twin is stored under its own code. */
  lemma JsKeysMatchCodes()
    ensures KeyedByCode(JsRegistry)
  {
  }

  /** The twin's alias export answers every lookup as its registry does. */
  lemma JsAliasLookupsAgree(code: string)
    ensures Lookup(JsRegistryByCode, code) == Lookup(JsRegistry, code)
  {
  }

  /** The twin's list has no duplicate code. */
  lemma JsListCodesDistinct()
    ensures Distinct(CodesOf(JsListRuleMetadata()))
  {
    TwinsAgree();
    ListCodesDistinct();
  }

  /** The twin's policy version and every entry's introduction version are "1.0.0". */
  lemma JsEntriesIntroducedAtPolicyVersion()
    ensures JsPolicyVersion == PolicyVersion == "1.0.0"
    ensures forall k :: k in JsRegistry ==> JsRegistry[k].introducedInPolicyVersion == JsPolicyVersion
  {
  }

  /**
   The two files define one registry: the same map, the same list, and so the
   same answer from each accessor for every input.
   */
  lemma TwinsAgree()
    ensures JsRegistry == RuleRegistry.Registry
    ensures JsListRuleMetadata() == ListRuleMetadata()
    ensures forall code :: JsGetRuleMetadata(code) == GetRuleMetadata(code)
  {
    var js := JsListRuleMetadata();
    var ts := ListRuleMetadata();
    forall i | 0 <= i < |js| ensures js[i] == ts[i] {
      assert js[i].ruleCode == ts[i].ruleCode;
    }
  }
}

=== FILE: wrappers.dfy ===
/** Optional value, used for lookups that may miss. */
module Wrappers {

  /** `None` stands for JavaScript's `undefined` / `null` result. */
  datatype Option<+T> = None | Some(value: T)
}
